=== FILE: README.md ===
# Point-of-sale checkout and stock ledger, in Dafny

This project models the transactional core of a small point-of-sale web
application (Flask + PostgreSQL). It covers the **checkout** that turns a cart
into an invoice, the **legacy single-item sales ledger** (record, edit and
delete a sale), the validation in **add product**, the **pagination**
arithmetic of the list pages and the **receipt's** CGST/SGST split.

Once the HTTP and SQL layers are stripped away, each route is a pure state
transition over a `Ledger.Store`. The store holds a product catalog
(`map<ProductId, Product>` plus the SERIAL counter) and the invoice,
invoice-item and legacy-sale tables as sequences. A row's id is its position
in its sequence. Checkout, recording a legacy sale and adding a product return
the new store together with the outcome the route reports to the user. A
rejected operation returns the store it was given, which is how "rolled back,
nothing written" is stated. Editing and deleting a legacy sale return only the
new store (their messages are under "Left out").

Money is counted in integer paise (hundredths of a rupee). The tax-inclusive
invoice total is a `real`, so the factor 1.18 is exact.

Modules:

- `Wrappers` (`wrappers.dfy`): `Option`.
- `Ledger` (`ledger.dfy`): the tables as datatypes. It also defines the store
  invariant `Valid`, which covers stock ≥ 0, product ids issued by the
  counter, and every invoice item belonging to an existing invoice.
- `Text` (`text.dfy`): Python's `str.isspace` and `str.strip()`.
- `Billing` (`checkout.dfy`): the checkout transaction.
- `CheckoutProperties` (`checkout_properties.dfy`): what checkout promises.
- `LegacySales` (`legacy_sales.dfy`): record, edit and delete a single sale.
- `Inventory` (`inventory.dfy`): add a product.
- `Pagination` (`pagination.dfy`): the page count and the offsets.
- `Receipt` (`receipt.dfy`): the subtotal/CGST/SGST split.
- `Scenarios` (`scenarios.dfy`): concrete checkouts against a one-product
  catalog.

The decoded cart is a sequence of lines in the order of the JSON object's
keys, because the rows checkout appends follow that order. A line's product id
is its key after the database's cast to an integer. Different keys can name
the same product ("1", "01", " 1"), so a cart may hold several lines for one
product, and `Billing.Checkout` accepts any cart. A payload that is not JSON
is `None`.

Behaviour of the code worth knowing:

- The legacy sale form never checks the customer name. It records a sale
  under an empty or whitespace-only name, which checkout would refuse
  (`LegacySales.BlankNameSaleRecorded`).
- The quantity in a cart line or a sale is never checked to be positive. A
  negative quantity passes the stock check and raises the stock
  (`Scenarios.NegativeQuantityRaisesStock`).
- The stock check looks at each cart line on its own. Two lines naming the
  same product both pass when each fits, and together they can drive the
  stock below zero (see Findings).
- A stock failure names only the cart item's display name. The available
  quantity is not reported.
- Editing a legacy sale does nothing when the chosen product does not exist.
- The only storage failure modelled is the one the code can provoke itself.
  A request without `payment_mode` passes validation, but the invoice insert
  then violates the column's NOT NULL constraint and the transaction is
  rolled back (`StorageError`).
- The code reads a line's price twice, once for the subtotal and once for the
  invoice item. The model reads it once. That matches the code only when no
  other request changes the price between the two reads: the database runs
  each read on a fresh snapshot, so a product edit committed in between
  changes the price the item records. `CheckoutProperties.CheckoutTotalMatchesLines`
  holds under the model's treatment of each request as one atomic step
  (see "Left out").

## Model

| member | source | states |
|---|---|---|
| Ledger.EmptyStore | reset_db.py:33-77 | freshly created tables are empty and satisfy the store invariant |
| Text.TrimLeft | app.py:502 | the result is the longest suffix of the input that does not start with whitespace, and everything dropped is whitespace |
| Text.TrimRight | app.py:502 | the result is the longest prefix of the input that does not end with whitespace, and everything dropped is whitespace |
| Text.Strip | app.py:502 | `name.strip()` is a contiguous piece of the name with only whitespace dropped on either side, neither starts nor ends with whitespace, and is empty exactly when the name is all whitespace |
| Billing.IsBlankName | app.py:502 | a name is blank exactly when it is missing or consists of whitespace only (the empty name included) |
| CheckoutProperties.InStockIffLineFits | app.py:524 | a line passes the stock check exactly when its product exists and taking that line alone off the stock leaves it ≥ 0 |
| Billing.FirstShortage | app.py:521-527 | finds no failing line exactly when every line's product exists with stock ≥ quantity; otherwise returns the first failing line, all lines before it passing |
| Billing.Subtotal | app.py:521-528 | with non-negative quantities and prices the subtotal is non-negative, and an all-zero cart costs nothing |
| Billing.InvoiceTotal | app.py:530-531 | the stored total exceeds the subtotal by exactly 18% of the subtotal |
| Billing.ItemFor | app.py:539-543 | an invoice item copies the line's product and quantity, snapshots the catalog price, and has line total = price at sale × quantity |
| Billing.SaleFor | app.py:547-548 | the mirrored legacy sale has the line's product and quantity, the invoice item's line total as its total price, and the checkout's customer and payment mode |
| Billing.LineItems | app.py:538-543 | one invoice item per cart line, in cart order, each priced from the catalog |
| Billing.LineSales | app.py:538-548 | one legacy sale per cart line, in cart order |
| Billing.Decrement | app.py:545 | each product loses the sum of the quantities of the lines naming it; names, categories, prices and the set of products do not change |
| Billing.Checkout | app.py:496-557 | a rejected checkout returns the store unchanged; a successful one appends exactly one invoice, whose id is the next index |
| CheckoutProperties.QuantityOfAbsent | app.py:521-545 | a product no cart line names is asked for nothing, so its stock is not touched |
| CheckoutProperties.QuantityOfDistinct | app.py:521-545 | when the lines name different products, a line's product is asked for exactly that line's quantity |
| CheckoutProperties.LineTotalsAddUp | app.py:528-541 | line totals priced from the catalog add up to the first loop's subtotal, and their quantities to the cart's units |
| CheckoutProperties.BlankNameRejectedFirst | app.py:500-504 | a missing, empty or whitespace-only name is rejected before any cart or stock work, whatever the cart, and nothing is written |
| CheckoutProperties.NonBlankNameAccepted | app.py:502 | a name with a non-whitespace character passes the name check |
| CheckoutProperties.MalformedCartRejected | app.py:506-510 | a payload that does not decode is rejected as malformed, with no writes |
| CheckoutProperties.EmptyCartRejected | app.py:512-514 | an empty cart is rejected as empty, a rejection distinct from malformed, with no writes |
| CheckoutProperties.ShortageRollsBack | app.py:521-527 | if any line names a missing product or exceeds its stock, checkout fails naming the first such line, and catalog, invoices, items and sales are all unchanged |
| CheckoutProperties.ExactStockSucceeds | app.py:524 | in any store, a one-line cart asking for exactly a product's stock succeeds and leaves that stock at 0 |
| CheckoutProperties.OneOverStockRefused | app.py:524-527 | in any store, a one-line cart asking for one more than a product's stock is refused with the store unchanged |
| CheckoutProperties.CheckoutSucceedsIff | app.py:500-557 | an invoice is created exactly when the name is not blank, the cart decodes and is non-empty, every line is in stock and a payment mode was sent |
| CheckoutProperties.CheckoutInvoice | app.py:520-535 | the new invoice carries the raw customer name, the payment mode, the cashier and (Σ catalog price × quantity) × 1.18 |
| CheckoutProperties.CheckoutStock | app.py:545 | every product's stock drops by the total quantity of the lines naming it; products not in the cart are untouched; no name, category or price changes |
| CheckoutProperties.CheckoutStockDistinct | app.py:545 | when the lines name different products, each line's product drops by exactly that line's quantity |
| CheckoutProperties.CheckoutKeepsStockNonNegative | app.py:521-545 | after a successful checkout, stock that started ≥ 0 stays ≥ 0 exactly when no product is asked for more than its stock over all its lines; a cart naming each product once always qualifies |
| CheckoutProperties.CheckoutRows | app.py:538-548 | one invoice item and one legacy sale are appended per cart line, in order, with line total = price at sale × quantity and sale total = line total; earlier rows are kept |
| CheckoutProperties.CheckoutTotalMatchesLines | app.py:528-548 | the invoice total equals (Σ new line totals) × 1.18, and the new items account for every unit in the cart |
| CheckoutProperties.CheckoutKeepsItemsOwned | app.py:534-543 | every item, old or new, belongs to an invoice that exists |
| CheckoutProperties.CheckoutPreservesValid | app.py:496-557 | every checkout keeps items owned and ids issued; one whose lines name different products keeps the whole store invariant |
| CheckoutProperties.UnknownProductRefusedAny | app.py:522-527 | in any store, a line naming a product the catalog lacks is refused with the store unchanged |
| CheckoutProperties.OverdrawRefused | app.py:521-527 | under the per-product check, a product whose lines together exceed its stock fails the checkout at the first such line, with the store unchanged |
| CheckoutProperties.CheckoutPerProductKeepsStockNonNegative | app.py:521-545 | under the per-product check, stock that started ≥ 0 stays ≥ 0 for every cart |
| CheckoutProperties.CheckoutPerProductAgreesOnDistinct | app.py:521-545 | on carts naming each product once, the per-product check gives exactly the route's store and outcome |
| Billing.FirstOverdraw | app.py:521-527 | finds no failing line exactly when every line is in stock and every line's product fits its total quantity; otherwise the first failing line |
| Billing.CheckoutPerProduct | app.py:496-557 | a rejected checkout returns the store unchanged; an accepted one is exactly the route's checkout, and every line's product fits its total quantity |
| LegacySales.RecordSale | app.py:368-389 | a missing product or stock < quantity leaves the store unchanged; otherwise exactly one sale is appended with total = price × quantity, and only that product's stock falls, by exactly the quantity |
| LegacySales.EditApplies | app.py:461-467 | an edit applies only to an existing product and a row that exists |
| LegacySales.EditSale | app.py:456-469 | when the product and the row exist, the row is overwritten with total = current price × quantity; otherwise nothing changes; stock and all other rows never change |
| LegacySales.DeleteSale | app.py:477-485 | the row disappears; catalog, stock and all other rows are unchanged |
| LegacySales.DeletedSaleIsNotEdited | app.py:461-467 | editing a deleted row changes nothing |
| LegacySales.RecordSaleMatchesCheckoutLine | app.py:374-388 | for a non-blank customer name, a legacy sale is accepted exactly when a one-line checkout of the same product and quantity is, and then leaves the same catalog and the same sales rows |
| LegacySales.BlankNameSaleRecorded | app.py:371-388 | a sale that fits the stock is recorded under an empty customer name, while a one-line checkout with that name is refused |
| LegacySales.RecordSalePreservesValid | app.py:374-388 | recording a sale keeps the store invariant, stock ≥ 0 included |
| LegacySales.EditAndDeletePreserveValid | app.py:456-485 | editing and deleting sale rows keep the store invariant |
| LegacySales.EditDoesNotReconcileStock | app.py:461-468 | after a sale's quantity is edited, the row shows the new quantity while the stock still reflects the original one |
| LegacySales.DeleteDoesNotRestoreStock | app.py:482 | deleting a recorded sale does not give its stock back |
| Inventory.AddProduct | app.py:241-261 | a missing or unparsable field is an invalid form; a stock or price ≤ 0 is refused; otherwise exactly one new product with a fresh id is added and nothing else changes |
| Inventory.AddProductPreservesValid | app.py:247-257 | adding a product keeps the store invariant |
| Pagination.TotalPages | app.py:226-230 | zero pages for zero rows, otherwise the ceiling of rows / 10 |
| Pagination.Offset | app.py:226-227 | a page from 1 on starts at a multiple of 10 from which the page number is recovered; a page below 1 gives a negative offset |
| Pagination.PageOf | app.py:395-396 | the page of a row is one whose offset window contains it |
| Pagination.PagesPartitionRows | app.py:226-235 | every row lies on exactly one of pages 1..total_pages |
| Pagination.LastPageNonEmpty | app.py:409-411 | the last page starts before the end of the rows |
| Receipt.ReceiptSplit | app.py:579-582 | subtotal × 1.18 = total, CGST = SGST, and subtotal + CGST + SGST = total |
| Receipt.ReceiptRecoversSubtotal | app.py:579-582 | dividing a checkout total by 1.18 gives back the pre-tax subtotal, and CGST + SGST is exactly the 18% tax |
| Receipt.ReceiptOfCheckout | app.py:576-582 | the receipt of a new invoice shows as subtotal the sum of its line totals |
| Scenarios.TwoPensFromTen | app.py:496-557 | ₹100.00 × 2 from a stock of 10 makes an invoice of ₹236.00, one item, one sale, and leaves 8 |
| Scenarios.FiveFromOneRefused | app.py:521-527 | 5 units against a stock of 1 is refused with the store unchanged |
| Scenarios.UnknownProductRefused | app.py:522-527 | a product id not in the catalog is refused like a shortage |
| Scenarios.WhitespaceNameRefused | app.py:502-504 | a name of spaces and a tab is blank |
| Scenarios.NegativeQuantityRaisesStock | app.py:524-545 | a negative quantity is accepted, gives a negative total and raises the stock |
| Scenarios.AliasedKeysDriveStockNegative | app.py:521-545 | two lines of 3 naming a product with stock 5 are both accepted and leave the stock at -1 |
| Scenarios.AliasedKeysRefusedPerProduct | app.py:521-527 | the per-product check refuses the same cart and leaves the store unchanged |

## Left out

- HTTP routing, sessions, login/admin decorators, `flash`, `redirect` and templates are interface glue. The logged-in cashier is a parameter of `Billing.Checkout`, and the message of checkout, the legacy sale and add product is their outcome value.
- The edit and delete messages of legacy sales are not modelled. The edit route reports success whenever the chosen product exists, even when no sale has that id and the update changes nothing. The delete route always reports success, even for a missing row. `LegacySales.EditSale` and `LegacySales.DeleteSale` return only the store.
- The SQL text, psycopg2 connections and the time-zone setting are storage I/O. Ids are positions or the counter. Creation timestamps are not modelled.
- Float arithmetic and `NUMERIC(10,2)` rounding of prices and totals are left out. Amounts are exact paise and reals.
- Billing.InvoiceTotal: the exact total is not rounded to two decimals as the column would store it, so it is stated without that rounding.
- Other database failures inside checkout are left out: numeric-field overflow of a `NUMERIC(10,2)` column, a quantity or a resulting `stock - quantity` outside the INTEGER range (the item and sale inserts and the stock update), a cart key that is not an integer id, and lost connections. Each would roll back like `StorageError`; only the missing payment mode is modelled.
- LegacySales.RecordSale, LegacySales.EditSale, Inventory.AddProduct: column ranges are not modelled. A `total_price` or `price` past `NUMERIC(10,2)`, or a quantity, stock or resulting stock outside the INTEGER range, makes the insert or update fail. So does a `product_id` in the legacy sale form that is not an integer, which is never converted before the query. These routes do not catch the database error: the request ends in an HTTP 500 with nothing committed. The model records the change with unbounded integers instead.
- Ids consumed by rolled-back inserts (gaps in SERIAL sequences) are not modelled.
- Concurrency and transaction isolation are left out, and each operation is one atomic step. This covers the check-then-act race between two checkouts. It also covers a price edit committed between checkout's two price reads under the database's default READ COMMITTED isolation, after which the invoice total need not equal the line totals × 1.18.
- `json.loads` internals are a library call; its result is an `Option` of a cart. Some payloads decode to values other than an object: a non-empty array, a non-zero number, a non-empty string or `true` makes `cart.items()` fail. Falsy values (`0`, `""`, `false`, `null`, `[]`, `{}`) get the handled empty-cart rejection and are the model's empty cart. A missing `quantity` field, or a quantity that is a string or `null`, makes the stock comparison fail. An item that is not an object, as in `{"1": 5}`, fails the same comparison with a TypeError. A line that fails the stock check but has no `name` field raises a KeyError while the refusal message is built; the model, whose cart lines always carry a name, reports `OutOfStock` instead. The store is unchanged in every one of these cases, and only the outcome differs. These raise uncaught exceptions (an HTTP 500) rather than a handled rejection, so they are not modelled.
- Quantities are integers in the model. A fractional JSON quantity such as 2.5 passes the stock comparison, enters the float totals, and is rounded by the INTEGER columns of invoice items, sales and stock. A `true` quantity compares as 1 and then fails the integer insert, a handled rollback. Neither is modelled.
- In the legacy sale and add-product forms, a missing field or an unparsable quantity in the sale form raises an uncaught exception. In add product they become `InvalidForm`, modelled as `None`. Add product's price parsing through `float` (including NaN and infinity) is left out; the price arrives already in paise.
- Pagination stops at the page count and offsets; the LIMIT/OFFSET queries and the search filters are left out. A page number below 1 gives a negative offset (`Pagination.Offset` states this), which the database rejects; that rejection is not modelled.
- Product edit and delete, user management, password hashing, the dashboard, the sales report's aggregates and the spreadsheet export are read-only reporting or trivial CRUD, and are left out.
- The database set-up, seeding and schema-inspection scripts and the browser toast script are out of scope. The schema in reset_db.py only fixes the record shapes.

## Findings

| source | as written | input that shows it | evidently intended | confidence | as-written member | corrected member |
|---|---|---|---|---|---|---|
| app.py:521-545 | each cart line is checked against stock on its own, while cart keys are strings that the database casts to product ids, so two keys can name one product and both lines are taken off its stock | product 1 with stock 5, cart `{"1": {"quantity": 3}, "01": {"quantity": 3}}`: both lines pass, stock ends at -1 | a product's lines together must fit in its stock, so stock never goes negative | medium, not executed | Scenarios.AliasedKeysDriveStockNegative | Billing.CheckoutPerProduct |

The route itself stays modelled as written: `Billing.Checkout`, and the
receipt and legacy-sale lemmas built on it, accept the aliased cart.
`Billing.CheckoutPerProduct` adds the per-product check.
`CheckoutProperties.CheckoutPerProductKeepsStockNonNegative` proves it keeps
stock non-negative for every cart. `CheckoutProperties.CheckoutPerProductAgreesOnDistinct`
proves it behaves exactly like the route on carts that name each product once.

=== FILE: checkout.dfy ===
/**
 The checkout transaction: validate the customer name and the cart, check
 every cart line against the catalog, then write one invoice, one invoice item
 and one legacy sale per line, and take each line's quantity off its product's
 stock. All of it happens as one atomic step: a rejected checkout hands back
 the store it was given.
 */
module Billing {
  import opened Wrappers
  import opened Ledger
  import Text

  /** One entry of the client's cart: the product, the requested quantity and
      the display name the client sent along (used only in messages). */
  datatype CartLine = CartLine(productId: ProductId, quantity: int, name: string)

  /** The decoded cart, in the order of the JSON object's keys. Each key is a
      string that the database casts to an integer product id, so two keys
      such as "1" and "01" give two lines naming the same product. */
  type Cart = seq<CartLine>

  /** Every line of the cart names a different product. */
  ghost predicate DistinctProducts(cart: Cart) {
    forall i, j :: 0 <= i < j < |cart| ==> cart[i].productId != cart[j].productId
  }

  datatype CheckoutError =
    | BlankCustomerName
    | MalformedCart
    | EmptyCart
    | OutOfStock(itemName: string)
    | StorageError

  datatype Outcome = Created(invoiceId: nat) | Rejected(error: CheckoutError)

  /** The fixed tax rate applied to the subtotal. */
  const TaxRate: real := 0.18

  /** A missing name, an empty name and a name of whitespace only are all blank. */
  predicate IsBlankName(name: Option<string>)
    ensures IsBlankName(name) <==> name.None? || Text.AllSpace(name.value)
  {
    name.None? || |name.value| == 0 || |Text.Strip(name.value)| == 0
  }

  /** The product of `line` exists and has at least the requested quantity,
      that is, taking the line alone off its product leaves no negative stock. */
  predicate InStock(catalog: map<ProductId, Product>, line: CartLine)
  {
    line.productId in catalog && catalog[line.productId].stock >= line.quantity
  }

  ghost predicate AllInCatalog(catalog: map<ProductId, Product>, cart: Cart) {
    forall i :: 0 <= i < |cart| ==> cart[i].productId in catalog
  }

  /** The first cart line that fails the stock check, if any. */
  function FirstShortage(catalog: map<ProductId, Product>, cart: Cart): (r: Option<nat>)
    ensures r.None? <==> forall i :: 0 <= i < |cart| ==> InStock(catalog, cart[i])
    ensures r.Some? ==> r.value < |cart| && !InStock(catalog, cart[r.value])
    ensures r.Some? ==> forall i :: 0 <= i < r.value ==> InStock(catalog, cart[i])
  {
    if |cart| == 0 then None
    else if !InStock(catalog, cart[0]) then Some(0)
    else
      match FirstShortage(catalog, cart[1..])
      case None => None
      case Some(k) => Some(k + 1)
  }

  /** The pre-tax amount: catalog price times requested quantity, summed over the cart. */
  function Subtotal(catalog: map<ProductId, Product>, cart: Cart): (total: int)
    requires AllInCatalog(catalog, cart)
    ensures (forall i :: 0 <= i < |cart| ==> cart[i].quantity >= 0 && catalog[cart[i].productId].price >= 0) ==> total >= 0
    ensures (forall i :: 0 <= i < |cart| ==> cart[i].quantity == 0) ==> total == 0
  {
    if |cart| == 0 then 0
    else catalog[cart[0].productId].price * cart[0].quantity + Subtotal(catalog, cart[1..])
  }

  /** The tax-inclusive total stored on the invoice. */
  function InvoiceTotal(subtotal: int): (t: real)
    ensures t - subtotal as real == subtotal as real * TaxRate
  {
    subtotal as real * (1.0 + TaxRate)
  }

  /** How many units of `pid` the cart asks for in all. */
  function QuantityOf(cart: Cart, pid: ProductId): int {
    if |cart| == 0 then 0
    else (if cart[0].productId == pid then cart[0].quantity else 0) + QuantityOf(cart[1..], pid)
  }

  /** The invoice item a cart line becomes, priced from the catalog. */
  function ItemFor(catalog: map<ProductId, Product>, invoiceId: nat, line: CartLine): (item: InvoiceItem)
    requires line.productId in catalog
    ensures item.invoiceId == invoiceId && item.productId == line.productId && item.quantity == line.quantity
    ensures item.priceAtSale == catalog[line.productId].price
    ensures item.lineTotal == item.priceAtSale * item.quantity
  {
    var price := catalog[line.productId].price;
    InvoiceItem(invoiceId, line.productId, line.quantity, price, price * line.quantity)
  }

  /** The legacy sale row mirrored from a cart line. */
  function SaleFor(catalog: map<ProductId, Product>, line: CartLine, customer: string, payment: string): (sale: Sale)
    requires line.productId in catalog
    ensures sale.productId == line.productId && sale.quantity == line.quantity
    ensures sale.totalPrice == ItemFor(catalog, 0, line).lineTotal
    ensures sale.customerName == customer && sale.paymentMode == payment
  {
    Sale(line.productId, line.quantity, catalog[line.productId].price * line.quantity, customer, payment)
  }

  /** The invoice items of the second loop, one per cart line, in cart order. */
  function LineItems(catalog: map<ProductId, Product>, invoiceId: nat, cart: Cart): (items: seq<InvoiceItem>)
    requires AllInCatalog(catalog, cart)
    ensures |items| == |cart|
    ensures forall k :: 0 <= k < |cart| ==> items[k] == ItemFor(catalog, invoiceId, cart[k])
  {
    if |cart| == 0 then []
    else [ItemFor(catalog, invoiceId, cart[0])] + LineItems(catalog, invoiceId, cart[1..])
  }

  /** The legacy sale rows of the second loop, one per cart line, in cart order. */
  function LineSales(catalog: map<ProductId, Product>, cart: Cart, customer: string, payment: string): (sales: seq<Option<Sale>>)
    requires AllInCatalog(catalog, cart)
    ensures |sales| == |cart|
    ensures forall k :: 0 <= k < |cart| ==> sales[k] == Some(SaleFor(catalog, cart[k], customer, payment))
  {
    if |cart| == 0 then []
    else [Some(SaleFor(catalog, cart[0], customer, payment))] + LineSales(catalog, cart[1..], customer, payment)
  }

  /** The stock updates of the second loop: each line takes its quantity off
      its product; names, categories and prices stay as they are. */
  function Decrement(catalog: map<ProductId, Product>, cart: Cart): (c: map<ProductId, Product>)
    requires AllInCatalog(catalog, cart)
    ensures c.Keys == catalog.Keys
    ensures forall pid :: pid in catalog ==>
              c[pid] == catalog[pid].(stock := catalog[pid].stock - QuantityOf(cart, pid))
    decreases |cart|
  {
    if |cart| == 0 then catalog
    else
      var pid := cart[0].productId;
      var p := catalog[pid];
      Decrement(catalog[pid := p.(stock := p.stock - cart[0].quantity)], cart[1..])
  }

  /**
   The checkout request. `cartData` is the result of decoding the submitted
   cart (`None` when it is not valid JSON); `cashier` is the logged-in user.
   Validation runs in the route's order: name, payload, emptiness, stock.
   A missing payment mode passes validation but violates the NOT NULL column
   of the invoice insert, which rolls the transaction back.
   */
  function Checkout(s: Store, customerName: Option<string>, paymentMode: Option<string>,
                    cartData: Option<Cart>, cashier: string): (r: (Store, Outcome))
    ensures r.1.Rejected? ==> r.0 == s
    ensures r.1.Created? ==> r.1.invoiceId == |s.invoices| && |r.0.invoices| == |s.invoices| + 1
    ensures r.1.Created? ==> r.0.invoices[..|s.invoices|] == s.invoices
  {
    if IsBlankName(customerName) then (s, Rejected(BlankCustomerName))
    else if cartData.None? then (s, Rejected(MalformedCart))
    else if |cartData.value| == 0 then (s, Rejected(EmptyCart))
    else
      var cart := cartData.value;
      match FirstShortage(s.catalog, cart)
      case Some(k) => (s, Rejected(OutOfStock(cart[k].name)))
      case None =>
        if paymentMode.None? then (s, Rejected(StorageError))
        else
          var invoiceId := |s.invoices|;
          var invoice := Invoice(customerName.value, paymentMode.value, InvoiceTotal(Subtotal(s.catalog, cart)), cashier);
          var posted := s.(invoices := s.invoices + [invoice],
                           items := s.items + LineItems(s.catalog, invoiceId, cart),
                           catalog := Decrement(s.catalog, cart),
                           sales := s.sales + LineSales(s.catalog, cart, customerName.value, paymentMode.value));
          (posted, Created(invoiceId))
  }

  /** Line `k` passes the per-product stock check: its product exists and
      all the lines naming that product together fit in its stock. */
  predicate Covered(catalog: map<ProductId, Product>, cart: Cart, k: nat)
    requires k < |cart|
  {
    InStock(catalog, cart[k]) && QuantityOf(cart, cart[k].productId) <= catalog[cart[k].productId].stock
  }

  /** The first line from index `from` on that fails the per-product check, if any. */
  function FirstOverdrawFrom(catalog: map<ProductId, Product>, cart: Cart, from: nat): (r: Option<nat>)
    requires from <= |cart|
    ensures r.None? <==> forall i :: from <= i < |cart| ==> Covered(catalog, cart, i)
    ensures r.Some? ==> from <= r.value < |cart| && !Covered(catalog, cart, r.value)
    ensures r.Some? ==> forall i :: from <= i < r.value ==> Covered(catalog, cart, i)
    decreases |cart| - from
  {
    if from == |cart| then None
    else if !Covered(catalog, cart, from) then Some(from)
    else FirstOverdrawFrom(catalog, cart, from + 1)
  }

  /** The first cart line that fails the per-product check, if any. */
  function FirstOverdraw(catalog: map<ProductId, Product>, cart: Cart): (r: Option<nat>)
    ensures r.None? <==> forall i :: 0 <= i < |cart| ==> Covered(catalog, cart, i)
    ensures r.Some? ==> r.value < |cart| && !Covered(catalog, cart, r.value)
    ensures r.Some? ==> forall i :: 0 <= i < r.value ==> Covered(catalog, cart, i)
  {
    FirstOverdrawFrom(catalog, cart, 0)
  }

  /**
   Checkout with the stock check the route evidently intends: besides each
   line on its own, a product's lines together must fit in its stock. The
   checks before and after the stock check are those of `Checkout`.
   */
  function CheckoutPerProduct(s: Store, customerName: Option<string>, paymentMode: Option<string>,
                              cartData: Option<Cart>, cashier: string): (r: (Store, Outcome))
    ensures r.1.Rejected? ==> r.0 == s
    ensures r.1.Created? ==> r == Checkout(s, customerName, paymentMode, cartData, cashier)
    ensures r.1.Created? ==> forall k :: 0 <= k < |cartData.value| ==> Covered(s.catalog, cartData.value, k)
  {
    if !IsBlankName(customerName) && cartData.Some? && |cartData.value| > 0 then
      match FirstOverdraw(s.catalog, cartData.value)
      case Some(k) => (s, Rejected(OutOfStock(cartData.value[k].name)))
      case None => Checkout(s, customerName, paymentMode, cartData, cashier)
    else Checkout(s, customerName, paymentMode, cartData, cashier)
  }
}

=== FILE: checkout_properties.dfy ===
/**
 What the checkout transaction promises: the order of its rejections, the
 all-or-nothing rollback, the invoice total, the per-line rows and the exact
 stock movement.
 */
module CheckoutProperties {
  import opened Wrappers
  import opened Ledger
  import opened Billing

  /** Sum of `lineTotal` over a run of invoice items. */
  function SumLineTotals(items: seq<InvoiceItem>): int {
    if |items| == 0 then 0 else items[0].lineTotal + SumLineTotals(items[1..])
  }

  /** Sum of `quantity` over a run of invoice items. */
  function SumItemQuantities(items: seq<InvoiceItem>): int {
    if |items| == 0 then 0 else items[0].quantity + SumItemQuantities(items[1..])
  }

  /** Sum of the requested quantities of a cart. */
  function CartUnits(cart: Cart): int {
    if |cart| == 0 then 0 else cart[0].quantity + CartUnits(cart[1..])
  }

  ghost predicate InCart(cart: Cart, pid: ProductId) {
    exists k :: 0 <= k < |cart| && cart[k].productId == pid
  }

  /** No product is asked for more than its stock over all the lines naming it. */
  ghost predicate ProductsFit(catalog: map<ProductId, Product>, cart: Cart) {
    forall pid :: pid in catalog ==> QuantityOf(cart, pid) <= catalog[pid].stock
  }

  /** A product that no line names is not asked for at all. */
  lemma {:induction false} QuantityOfAbsent(cart: Cart, pid: ProductId)
    ensures !InCart(cart, pid) ==> QuantityOf(cart, pid) == 0
  {
    if |cart| > 0 && !InCart(cart, pid) {
      QuantityOfAbsent(cart[1..], pid);
      assert !InCart(cart[1..], pid) by {
        forall k | 0 <= k < |cart| - 1 ensures cart[1..][k].productId != pid {
          assert cart[1..][k] == cart[k + 1];
        }
      }
    }
  }

  /** In a cart that names each product once, a line's product is asked for
      exactly that line's quantity. */
  lemma {:induction false} QuantityOfDistinct(cart: Cart, pid: ProductId)
    requires DistinctProducts(cart)
    ensures forall k :: 0 <= k < |cart| && cart[k].productId == pid ==> QuantityOf(cart, pid) == cart[k].quantity
  {
    if |cart| > 0 {
      QuantityOfDistinct(cart[1..], pid);
      if cart[0].productId == pid {
        assert !InCart(cart[1..], pid);
        QuantityOfAbsent(cart[1..], pid);
      } else {
        forall k | 0 <= k < |cart| && cart[k].productId == pid
          ensures QuantityOf(cart, pid) == cart[k].quantity
        {
          assert cart[1..][k - 1] == cart[k];
        }
      }
    }
  }

  /** Items priced line by line from the catalog add up to the cart's subtotal,
      and their quantities to the cart's units. */
  lemma {:induction false} LineTotalsAddUp(catalog: map<ProductId, Product>, invoiceId: nat, cart: Cart, items: seq<InvoiceItem>)
    requires AllInCatalog(catalog, cart)
    requires |items| == |cart|
    requires forall k :: 0 <= k < |cart| ==> items[k] == ItemFor(catalog, invoiceId, cart[k])
    ensures SumLineTotals(items) == Subtotal(catalog, cart)
    ensures SumItemQuantities(items) == CartUnits(cart)
  {
    if |cart| > 0 {
      LineTotalsAddUp(catalog, invoiceId, cart[1..], items[1..]);
    }
  }

  /** How a checkout that passes validation is put together: the invoice,
      items, stock updates and sales of the transaction are applied to the
      store it started from. */
  lemma CreatedStore(s: Store, name: Option<string>, payment: Option<string>, cart: Cart, cashier: string)
    requires !IsBlankName(name) && payment.Some? && |cart| > 0
    requires forall i :: 0 <= i < |cart| ==> InStock(s.catalog, cart[i])
    ensures AllInCatalog(s.catalog, cart)
    ensures Checkout(s, name, payment, Some(cart), cashier)
         == (Store(Decrement(s.catalog, cart), s.nextProductId,
                   s.invoices + [Invoice(name.value, payment.value, InvoiceTotal(Subtotal(s.catalog, cart)), cashier)],
                   s.items + LineItems(s.catalog, |s.invoices|, cart),
                   s.sales + LineSales(s.catalog, cart, name.value, payment.value)),
             Created(|s.invoices|))
  {
    assert FirstShortage(s.catalog, cart) == None;
  }

  /** A line passes the stock check exactly when its product exists and
      taking that line alone off the product's stock leaves it non-negative. */
  lemma InStockIffLineFits(catalog: map<ProductId, Product>, line: CartLine)
    ensures InStock(catalog, line) <==>
              line.productId in catalog && Decrement(catalog, [line])[line.productId].stock >= 0
  {
    if line.productId in catalog {
      assert QuantityOf([line], line.productId) == line.quantity;
    }
  }

  /** The name is checked before anything else: a blank name is rejected
      whatever the cart holds, and nothing is written. */
  lemma BlankNameRejectedFirst(s: Store, name: Option<string>, payment: Option<string>, cartData: Option<Cart>, cashier: string)
    requires name.None? || Text.AllSpace(name.value)
    ensures Checkout(s, name, payment, cartData, cashier) == (s, Rejected(BlankCustomerName))
  {
  }

  /** A name with a visible character passes the name check. */
  lemma NonBlankNameAccepted(name: string)
    requires !Text.AllSpace(name)
    ensures !IsBlankName(Some(name))
  {
  }

  /** A payload that is not JSON is rejected as malformed, with no writes. */
  lemma MalformedCartRejected(s: Store, name: Option<string>, payment: Option<string>, cashier: string)
    requires !IsBlankName(name)
    ensures Checkout(s, name, payment, None, cashier) == (s, Rejected(MalformedCart))
  {
  }

  /** An empty cart is rejected as empty, distinct from malformed, with no writes. */
  lemma EmptyCartRejected(s: Store, name: Option<string>, payment: Option<string>, cashier: string)
    requires !IsBlankName(name)
    ensures Checkout(s, name, payment, Some([]), cashier) == (s, Rejected(EmptyCart))
  {
  }

  /** If any line names a missing product or asks for more than its stock,
      the whole checkout fails naming the first such line, and the store
      (catalog, invoices, items, sales) is exactly as before. */
  lemma ShortageRollsBack(s: Store, name: Option<string>, payment: Option<string>, cart: Cart, cashier: string, bad: nat)
    requires !IsBlankName(name)
    requires bad < |cart| && !InStock(s.catalog, cart[bad])
    ensures exists k :: 0 <= k <= bad && !InStock(s.catalog, cart[k])
              && (forall j :: 0 <= j < k ==> InStock(s.catalog, cart[j]))
              && Checkout(s, name, payment, Some(cart), cashier) == (s, Rejected(OutOfStock(cart[k].name)))
    ensures (forall j :: 0 <= j < bad ==> InStock(s.catalog, cart[j])) ==>
              Checkout(s, name, payment, Some(cart), cashier) == (s, Rejected(OutOfStock(cart[bad].name)))
  {
    var k := FirstShortage(s.catalog, cart).value;
    assert !InStock(s.catalog, cart[k]);
  }

  /** Asking for exactly a product's stock succeeds and empties it. */
  lemma ExactStockSucceeds(s: Store, pid: ProductId, name: string, payment: string, itemName: string, cashier: string)
    requires pid in s.catalog && !IsBlankName(Some(name))
    ensures var r := Checkout(s, Some(name), Some(payment), Some([CartLine(pid, s.catalog[pid].stock, itemName)]), cashier);
      r.1.Created? && r.0.catalog[pid].stock == 0
  {
    var cart := [CartLine(pid, s.catalog[pid].stock, itemName)];
    CheckoutSucceedsIff(s, Some(name), Some(payment), Some(cart), cashier);
    CheckoutStock(s, Some(name), Some(payment), cart, cashier);
    assert cart[0].productId == pid;
  }

  /** Asking for one more than a product's stock is refused and nothing changes. */
  lemma OneOverStockRefused(s: Store, pid: ProductId, name: string, payment: string, itemName: string, cashier: string)
    requires pid in s.catalog && !IsBlankName(Some(name))
    ensures var cart := [CartLine(pid, s.catalog[pid].stock + 1, itemName)];
      Checkout(s, Some(name), Some(payment), Some(cart), cashier) == (s, Rejected(OutOfStock(itemName)))
  {
    ShortageRollsBack(s, Some(name), Some(payment), [CartLine(pid, s.catalog[pid].stock + 1, itemName)], cashier, 0);
  }

  /** A line naming a product the catalog does not have is refused like a
      shortage, and nothing changes. */
  lemma UnknownProductRefusedAny(s: Store, pid: ProductId, quantity: int, name: string, payment: string, itemName: string, cashier: string)
    requires pid !in s.catalog && !IsBlankName(Some(name))
    ensures Checkout(s, Some(name), Some(payment), Some([CartLine(pid, quantity, itemName)]), cashier)
         == (s, Rejected(OutOfStock(itemName)))
  {
    ShortageRollsBack(s, Some(name), Some(payment), [CartLine(pid, quantity, itemName)], cashier, 0);
  }

  /** Checkout creates an invoice exactly when the name is not blank, the
      payload decoded to a non-empty cart, every line is in stock and a
      payment mode was sent. */
  lemma CheckoutSucceedsIff(s: Store, name: Option<string>, payment: Option<string>, cartData: Option<Cart>, cashier: string)
    ensures Checkout(s, name, payment, cartData, cashier).1.Created?
        <==> && !IsBlankName(name)
             && cartData.Some? && |cartData.value| > 0
             && (forall i :: 0 <= i < |cartData.value| ==> InStock(s.catalog, cartData.value[i]))
             && payment.Some?
  {
  }

  /** The new invoice carries the raw customer name, the payment mode, the
      cashier, and the catalog-priced subtotal times 1.18. */
  lemma CheckoutInvoice(s: Store, name: Option<string>, payment: Option<string>, cart: Cart, cashier: string)
    requires Checkout(s, name, payment, Some(cart), cashier).1.Created?
    ensures AllInCatalog(s.catalog, cart)
    ensures Checkout(s, name, payment, Some(cart), cashier).0.invoices[|s.invoices|]
         == Invoice(name.value, payment.value, Subtotal(s.catalog, cart) as real * 1.18, cashier)
  {
    CheckoutSucceedsIff(s, name, payment, Some(cart), cashier);
    CreatedStore(s, name, payment, cart, cashier);
  }

  /** After a successful checkout each product has lost the quantities of
      all the lines naming it, a product no line names is untouched, and no
      product's name, category or price changed. */
  lemma CheckoutStock(s: Store, name: Option<string>, payment: Option<string>, cart: Cart, cashier: string)
    requires Checkout(s, name, payment, Some(cart), cashier).1.Created?
    ensures var c := Checkout(s, name, payment, Some(cart), cashier).0.catalog;
      && c.Keys == s.catalog.Keys
      && (forall pid :: pid in s.catalog ==> c[pid].stock == s.catalog[pid].stock - QuantityOf(cart, pid))
      && (forall pid :: pid in s.catalog && !InCart(cart, pid) ==> c[pid] == s.catalog[pid])
      && (forall pid :: pid in s.catalog ==> c[pid] == s.catalog[pid].(stock := c[pid].stock))
  {
    CheckoutSucceedsIff(s, name, payment, Some(cart), cashier);
    CreatedStore(s, name, payment, cart, cashier);
    forall pid {
      QuantityOfAbsent(cart, pid);
    }
  }

  /** When the cart's lines name different products, each line's product
      has lost exactly that line's quantity. */
  lemma CheckoutStockDistinct(s: Store, name: Option<string>, payment: Option<string>, cart: Cart, cashier: string)
    requires Checkout(s, name, payment, Some(cart), cashier).1.Created?
    requires DistinctProducts(cart)
    ensures var c := Checkout(s, name, payment, Some(cart), cashier).0.catalog;
      forall k :: 0 <= k < |cart| ==>
        cart[k].productId in c && c[cart[k].productId].stock == s.catalog[cart[k].productId].stock - cart[k].quantity
  {
    CheckoutStock(s, name, payment, cart, cashier);
    forall pid {
      QuantityOfDistinct(cart, pid);
    }
  }

  /** Stock that started non-negative stays non-negative after a successful
      checkout exactly when no product is asked for more than its stock over
      all the lines naming it. A cart whose lines name different products
      always qualifies. */
  lemma CheckoutKeepsStockNonNegative(s: Store, name: Option<string>, payment: Option<string>, cart: Cart, cashier: string)
    requires StockNonNegative(s.catalog)
    ensures var c := Checkout(s, name, payment, Some(cart), cashier);
      c.1.Created? ==> (StockNonNegative(c.0.catalog) <==> ProductsFit(s.catalog, cart))
    ensures DistinctProducts(cart) ==> StockNonNegative(Checkout(s, name, payment, Some(cart), cashier).0.catalog)
  {
    var r := Checkout(s, name, payment, Some(cart), cashier);
    if r.1.Created? {
      CheckoutStock(s, name, payment, cart, cashier);
      if DistinctProducts(cart) {
        forall pid | pid in s.catalog ensures QuantityOf(cart, pid) <= s.catalog[pid].stock {
          QuantityOfAbsent(cart, pid);
          if InCart(cart, pid) {
            var k :| 0 <= k < |cart| && cart[k].productId == pid;
            QuantityOfDistinct(cart, pid);
            assert InStock(s.catalog, cart[k]);
          }
        }
      }
    }
  }

  /** A successful checkout appends one invoice item and one legacy sale per
      cart line, in cart order, each with line total = price at sale × quantity
      and the sale's total price equal to that line total. */
  lemma CheckoutRows(s: Store, name: Option<string>, payment: Option<string>, cart: Cart, cashier: string)
    requires Checkout(s, name, payment, Some(cart), cashier).1.Created?
    ensures var r := Checkout(s, name, payment, Some(cart), cashier).0;
      && |r.items| == |s.items| + |cart| && r.items[..|s.items|] == s.items
      && |r.sales| == |s.sales| + |cart| && r.sales[..|s.sales|] == s.sales
      && (forall k :: 0 <= k < |cart| ==>
            var item := r.items[|s.items| + k];
            && item.invoiceId == |s.invoices|
            && item.productId == cart[k].productId
            && item.quantity == cart[k].quantity
            && item.priceAtSale == s.catalog[cart[k].productId].price
            && item.lineTotal == item.priceAtSale * item.quantity
            && r.sales[|s.sales| + k] == Some(Sale(item.productId, item.quantity, item.lineTotal, name.value, payment.value)))
  {
    CheckoutSucceedsIff(s, name, payment, Some(cart), cashier);
    CreatedStore(s, name, payment, cart, cashier);
  }

  /** The invoice total is the sum of the new line totals times 1.18, and the
      new items account for every unit in the cart. */
  lemma CheckoutTotalMatchesLines(s: Store, name: Option<string>, payment: Option<string>, cart: Cart, cashier: string)
    requires Checkout(s, name, payment, Some(cart), cashier).1.Created?
    ensures var r := Checkout(s, name, payment, Some(cart), cashier).0;
      && r.invoices[|s.invoices|].totalAmount == SumLineTotals(r.items[|s.items|..]) as real * 1.18
      && SumItemQuantities(r.items[|s.items|..]) == CartUnits(cart)
  {
    CheckoutSucceedsIff(s, name, payment, Some(cart), cashier);
    CreatedStore(s, name, payment, cart, cashier);
    var r := Checkout(s, name, payment, Some(cart), cashier).0;
    var added := LineItems(s.catalog, |s.invoices|, cart);
    assert r.items[|s.items|..] == added;
    LineTotalsAddUp(s.catalog, |s.invoices|, cart, added);
  }

  /** A successful checkout only adds items that belong to the new invoice,
      so every item still has its invoice. */
  lemma CheckoutKeepsItemsOwned(s: Store, name: Option<string>, payment: Option<string>, cart: Cart, cashier: string)
    requires ItemsOwned(s)
    ensures ItemsOwned(Checkout(s, name, payment, Some(cart), cashier).0)
  {
    CheckoutSucceedsIff(s, name, payment, Some(cart), cashier);
    if Checkout(s, name, payment, Some(cart), cashier).1.Created? {
      CreatedStore(s, name, payment, cart, cashier);
      AppendedItemsOwned(s.items, LineItems(s.catalog, |s.invoices|, cart), |s.invoices|);
    }
  }

  /** Items of a new invoice appended to owned items stay owned once the
      invoice exists. */
  lemma AppendedItemsOwned(items: seq<InvoiceItem>, added: seq<InvoiceItem>, invoiceId: nat)
    requires forall i :: 0 <= i < |items| ==> items[i].invoiceId < invoiceId
    requires forall k :: 0 <= k < |added| ==> added[k].invoiceId == invoiceId
    ensures forall i :: 0 <= i < |items + added| ==> (items + added)[i].invoiceId < invoiceId + 1
  {
  }

  /** Every checkout, successful or not, keeps invoice items owned and
      product ids issued, and a checkout whose lines name different products
      keeps the whole store consistent. */
  lemma CheckoutPreservesValid(s: Store, name: Option<string>, payment: Option<string>, cartData: Option<Cart>, cashier: string)
    requires Valid(s)
    ensures var r := Checkout(s, name, payment, cartData, cashier).0;
      ItemsOwned(r) && IdsIssued(r)
    ensures (cartData.Some? ==> DistinctProducts(cartData.value)) ==> Valid(Checkout(s, name, payment, cartData, cashier).0)
  {
    var r := Checkout(s, name, payment, cartData, cashier);
    if r.1.Created? {
      var cart := cartData.value;
      CheckoutKeepsStockNonNegative(s, name, payment, cart, cashier);
      CheckoutKeepsItemsOwned(s, name, payment, cart, cashier);
      CheckoutStock(s, name, payment, cart, cashier);
      assert r.0.nextProductId == s.nextProductId;
    }
  }

  /** Under the per-product check stock that started non-negative stays
      non-negative, whatever lines the cart holds. */
  lemma CheckoutPerProductKeepsStockNonNegative(s: Store, name: Option<string>, payment: Option<string>,
                                                cartData: Option<Cart>, cashier: string)
    requires StockNonNegative(s.catalog)
    ensures StockNonNegative(CheckoutPerProduct(s, name, payment, cartData, cashier).0.catalog)
  {
    var r := CheckoutPerProduct(s, name, payment, cartData, cashier);
    if r.1.Created? {
      var cart := cartData.value;
      forall pid | pid in s.catalog ensures QuantityOf(cart, pid) <= s.catalog[pid].stock {
        QuantityOfAbsent(cart, pid);
        if InCart(cart, pid) {
          var k :| 0 <= k < |cart| && cart[k].productId == pid;
          assert Covered(s.catalog, cart, k);
        }
      }
      CheckoutKeepsStockNonNegative(s, name, payment, cart, cashier);
    }
  }

  /** Under the per-product check a line whose product's lines together
      ask for more than its stock fails the whole checkout, naming the first
      failing line, and nothing is written. */
  lemma OverdrawRefused(s: Store, name: Option<string>, payment: Option<string>, cart: Cart, cashier: string, bad: nat)
    requires !IsBlankName(name)
    requires bad < |cart| && !Covered(s.catalog, cart, bad)
    ensures exists k :: 0 <= k <= bad && !Covered(s.catalog, cart, k)
              && CheckoutPerProduct(s, name, payment, Some(cart), cashier) == (s, Rejected(OutOfStock(cart[k].name)))
    ensures (forall j :: 0 <= j < bad ==> Covered(s.catalog, cart, j)) ==>
              CheckoutPerProduct(s, name, payment, Some(cart), cashier) == (s, Rejected(OutOfStock(cart[bad].name)))
  {
    var k := FirstOverdraw(s.catalog, cart).value;
    assert !Covered(s.catalog, cart, k);
  }

  /** On carts whose lines name different products the per-product check
      changes nothing: both checkouts give the same store and outcome. */
  lemma CheckoutPerProductAgreesOnDistinct(s: Store, name: Option<string>, payment: Option<string>,
                                           cartData: Option<Cart>, cashier: string)
    requires cartData.Some? ==> DistinctProducts(cartData.value)
    ensures CheckoutPerProduct(s, name, payment, cartData, cashier) == Checkout(s, name, payment, cartData, cashier)
  {
    if !IsBlankName(name) && cartData.Some? && |cartData.value| > 0 {
      var cart := cartData.value;
      forall k | 0 <= k < |cart| ensures Covered(s.catalog, cart, k) <==> InStock(s.catalog, cart[k]) {
        QuantityOfDistinct(cart, cart[k].productId);
      }
      match FirstOverdraw(s.catalog, cart)
      case None =>
      case Some(k) =>
        assert FirstShortage(s.catalog, cart) == Some(k);
    }
  }
}

=== FILE: inventory.dfy ===
/** Adding a product to the catalog from the admin form. */
module Inventory {
  import opened Wrappers
  import opened Ledger

  datatype AddOutcome = Added(productId: ProductId) | InvalidForm | NotPositive

  /** Each field is `None` when it is missing from the form or does not parse
      as a number. A stock or price that is zero or negative is refused;
      otherwise the product gets the next SERIAL id. */
  function AddProduct(s: Store, name: Option<string>, category: Option<string>, price: Option<int>, stock: Option<int>): (r: (Store, AddOutcome))
    requires IdsIssued(s)
    ensures !r.1.Added? ==> r.0 == s
    ensures r.1 == InvalidForm <==> name.None? || category.None? || price.None? || stock.None?
    ensures r.1.Added? <==> name.Some? && category.Some? && price.Some? && stock.Some? && price.value > 0 && stock.value > 0
    ensures r.1.Added? ==>
              && r.1.productId !in s.catalog
              && r.0.catalog.Keys == s.catalog.Keys + {r.1.productId}
              && r.0.catalog[r.1.productId] == Product(name.value, category.value, price.value, stock.value)
              && (forall pid :: pid in s.catalog ==> r.0.catalog[pid] == s.catalog[pid])
              && IdsIssued(r.0)
              && r.0.invoices == s.invoices && r.0.items == s.items && r.0.sales == s.sales
  {
    if name.None? || category.None? || price.None? || stock.None? then (s, InvalidForm)
    else if stock.value <= 0 || price.value <= 0 then (s, NotPositive)
    else
      var id := s.nextProductId;
      var p := Product(name.value, category.value, price.value, stock.value);
      (s.(catalog := s.catalog[id := p], nextProductId := id + 1), Added(id))
  }

  /** Adding a product keeps the store consistent, in particular the new
      product's stock is positive. */
  lemma AddProductPreservesValid(s: Store, name: Option<string>, category: Option<string>, price: Option<int>, stock: Option<int>)
    requires Valid(s)
    ensures Valid(AddProduct(s, name, category, price, stock).0)
  {
  }
}

=== FILE: ledger.dfy ===
/**
 The relational store of the point-of-sale application, with the SQL tables
 replaced by maps and sequences.

 Money is counted in paise (hundredths of a rupee) so that prices and line
 totals are exact integers; the tax-inclusive invoice total is a `real`.
 Row identifiers that the database assigns from a SERIAL counter are modelled
 as positions in a sequence (invoices, invoice items, legacy sales) or as a
 counter next to the catalog map (products).
 */
module Ledger {
  import opened Wrappers

  type ProductId = int

  /** A row of `products`. `stock` is a plain integer column: nothing in the
      schema forbids a negative value, only the sale paths guard it. */
  datatype Product = Product(name: string, category: string, price: int, stock: int)

  /** A row of `invoices`; its id is its position in `Store.invoices`. */
  datatype Invoice = Invoice(customerName: string, paymentMode: string, totalAmount: real, cashier: string)

  /** A row of `invoice_items`; its id is its position in `Store.items`. */
  datatype InvoiceItem = InvoiceItem(invoiceId: nat, productId: ProductId, quantity: int, priceAtSale: int, lineTotal: int)

  /** A row of the legacy `sales` table. */
  datatype Sale = Sale(productId: ProductId, quantity: int, totalPrice: int, customerName: string, paymentMode: string)

  /** The whole database. A sale id is a position in `sales`; a deleted sale
      leaves `None` behind so that later ids keep their meaning. */
  datatype Store = Store(
    catalog: map<ProductId, Product>,
    nextProductId: ProductId,
    invoices: seq<Invoice>,
    items: seq<InvoiceItem>,
    sales: seq<Option<Sale>>)

  /** The stock invariant: no product has negative stock. */
  ghost predicate StockNonNegative(catalog: map<ProductId, Product>) {
    forall pid :: pid in catalog ==> catalog[pid].stock >= 0
  }

  /** Every product id was handed out by the SERIAL counter. */
  ghost predicate IdsIssued(s: Store) {
    forall pid :: pid in s.catalog ==> pid < s.nextProductId
  }

  /** Every invoice item belongs to an invoice that exists. */
  ghost predicate ItemsOwned(s: Store) {
    forall i :: 0 <= i < |s.items| ==> s.items[i].invoiceId < |s.invoices|
  }

  /** The consistency the modelled operations keep. */
  ghost predicate Valid(s: Store) {
    StockNonNegative(s.catalog) && IdsIssued(s) && ItemsOwned(s)
  }

  /** The database after `reset_db.py` has created empty tables. */
  function EmptyStore(): (s: Store)
    ensures Valid(s)
    ensures s.catalog == map[] && s.invoices == [] && s.items == [] && s.sales == []
  {
    Store(map[], 1, [], [], [])
  }
}

=== FILE: legacy_sales.dfy ===
/**
 The legacy single-item sales ledger: record a sale of one product (with the
 same stock check and decrement as checkout), edit a sale row, delete a sale
 row. Editing and deleting never touch stock, so they can leave stock and the
 ledger out of step; the lemmas at the end state that gap precisely.
 */
module LegacySales {
  import opened Wrappers
  import opened Ledger
  import Billing
  import CheckoutProperties

  datatype SaleOutcome = Recorded(saleId: nat) | InvalidProduct | NotEnoughStock(available: int)

  /** The sale form. A missing product is rejected, then a quantity above the
      stock; otherwise one sale row is appended with total price = catalog
      price × quantity and the product's stock drops by the quantity. */
  function RecordSale(s: Store, productId: ProductId, quantity: int, customerName: string, paymentMode: string): (r: (Store, SaleOutcome))
    ensures !r.1.Recorded? ==> r.0 == s
    ensures r.1 == InvalidProduct <==> productId !in s.catalog
    ensures r.1.NotEnoughStock? <==> productId in s.catalog && s.catalog[productId].stock < quantity
    ensures r.1.NotEnoughStock? ==> r.1.available == s.catalog[productId].stock
    ensures r.1.Recorded? ==>
              && productId in s.catalog
              && r.1.saleId == |s.sales|
              && r.0.sales == s.sales + [Some(Sale(productId, quantity, s.catalog[productId].price * quantity, customerName, paymentMode))]
              && r.0.catalog.Keys == s.catalog.Keys
              && r.0.catalog[productId].stock == s.catalog[productId].stock - quantity
              && r.0.catalog[productId] == s.catalog[productId].(stock := r.0.catalog[productId].stock)
              && (forall pid :: pid in s.catalog && pid != productId ==> r.0.catalog[pid] == s.catalog[pid])
              && r.0.invoices == s.invoices && r.0.items == s.items && r.0.nextProductId == s.nextProductId
  {
    if productId !in s.catalog then (s, InvalidProduct)
    else
      var p := s.catalog[productId];
      if p.stock < quantity then (s, NotEnoughStock(p.stock))
      else
        var sale := Sale(productId, quantity, p.price * quantity, customerName, paymentMode);
        (s.(sales := s.sales + [Some(sale)], catalog := s.catalog[productId := p.(stock := p.stock - quantity)]),
         Recorded(|s.sales|))
  }

  /** True when the edit form would rewrite row `saleId`: the chosen product
      exists and so does the row. */
  predicate EditApplies(s: Store, saleId: int, productId: ProductId)
    ensures EditApplies(s, saleId, productId) ==> productId in s.catalog && 0 <= saleId < |s.sales|
  {
    productId in s.catalog && 0 <= saleId < |s.sales| && s.sales[saleId].Some?
  }

  /** The edit form. When the chosen product exists the whole row is
      overwritten and its total recomputed from the current catalog price;
      otherwise nothing happens. Stock is never adjusted. */
  function EditSale(s: Store, saleId: int, productId: ProductId, quantity: int, customerName: string, paymentMode: string): (r: Store)
    ensures r.catalog == s.catalog && r.nextProductId == s.nextProductId
    ensures r.invoices == s.invoices && r.items == s.items
    ensures |r.sales| == |s.sales|
    ensures forall i :: 0 <= i < |s.sales| && i != saleId ==> r.sales[i] == s.sales[i]
    ensures EditApplies(s, saleId, productId) ==>
              r.sales[saleId] == Some(Sale(productId, quantity, s.catalog[productId].price * quantity, customerName, paymentMode))
    ensures !EditApplies(s, saleId, productId) ==> r == s
  {
    if EditApplies(s, saleId, productId) then
      var sale := Sale(productId, quantity, s.catalog[productId].price * quantity, customerName, paymentMode);
      s.(sales := s.sales[saleId := Some(sale)])
    else s
  }

  /** The delete button. The row disappears (if it was there); stock is not
      given back. */
  function DeleteSale(s: Store, saleId: int): (r: Store)
    ensures r.catalog == s.catalog && r.nextProductId == s.nextProductId
    ensures r.invoices == s.invoices && r.items == s.items
    ensures |r.sales| == |s.sales|
    ensures 0 <= saleId < |s.sales| ==> r.sales[saleId].None?
    ensures forall i :: 0 <= i < |s.sales| && i != saleId ==> r.sales[i] == s.sales[i]
  {
    if 0 <= saleId < |s.sales| then s.(sales := s.sales[saleId := None]) else s
  }

  /** Recording a sale accepts exactly the lines checkout's stock check
      accepts, and moves the catalog exactly as a one-line checkout does. */
  lemma RecordSaleMatchesCheckoutLine(s: Store, productId: ProductId, quantity: int, customerName: string,
                                      paymentMode: string, itemName: string, cashier: string)
    requires !Billing.IsBlankName(Some(customerName))
    ensures var line := Billing.CartLine(productId, quantity, itemName);
      var sold := RecordSale(s, productId, quantity, customerName, paymentMode);
      var billed := Billing.Checkout(s, Some(customerName), Some(paymentMode), Some([line]), cashier);
      && (sold.1.Recorded? <==> Billing.InStock(s.catalog, line))
      && (sold.1.Recorded? <==> billed.1.Created?)
      && (sold.1.Recorded? ==> sold.0.catalog == billed.0.catalog && sold.0.sales == billed.0.sales)
  {
    var line := Billing.CartLine(productId, quantity, itemName);
    var cart := [line];
    var sold := RecordSale(s, productId, quantity, customerName, paymentMode);
    CheckoutProperties.CheckoutSucceedsIff(s, Some(customerName), Some(paymentMode), Some(cart), cashier);
    if sold.1.Recorded? {
      CheckoutProperties.CreatedStore(s, Some(customerName), Some(paymentMode), cart, cashier);
      var c := Billing.Decrement(s.catalog, cart);
      forall pid | pid in s.catalog ensures sold.0.catalog[pid] == c[pid] {
        assert Billing.QuantityOf(cart, pid) == (if pid == productId then quantity else 0);
      }
      assert sold.0.catalog == c;
      assert Billing.LineSales(s.catalog, cart, customerName, paymentMode)
          == [Some(Sale(productId, quantity, s.catalog[productId].price * quantity, customerName, paymentMode))];
    }
  }

  /** A deleted row is gone for good: editing it afterwards changes nothing. */
  lemma DeletedSaleIsNotEdited(s: Store, saleId: int, productId: ProductId, quantity: int, customerName: string, paymentMode: string)
    ensures var gone := DeleteSale(s, saleId);
      !EditApplies(gone, saleId, productId) && EditSale(gone, saleId, productId, quantity, customerName, paymentMode) == gone
  {
  }

  /** The sale form never checks the customer name: a sale that fits the
      stock is recorded under an empty name, which checkout refuses. */
  lemma BlankNameSaleRecorded(s: Store, productId: ProductId, quantity: int, paymentMode: string, itemName: string, cashier: string)
    requires productId in s.catalog && s.catalog[productId].stock >= quantity
    ensures RecordSale(s, productId, quantity, "", paymentMode).1.Recorded?
    ensures Billing.Checkout(s, Some(""), Some(paymentMode), Some([Billing.CartLine(productId, quantity, itemName)]), cashier).1.Rejected?
  {
  }

  /** Recording a sale keeps the store consistent. */
  lemma RecordSalePreservesValid(s: Store, productId: ProductId, quantity: int, customerName: string, paymentMode: string)
    requires Valid(s)
    ensures Valid(RecordSale(s, productId, quantity, customerName, paymentMode).0)
  {
  }

  /** Editing or deleting sale rows keeps the store consistent. */
  lemma EditAndDeletePreserveValid(s: Store, saleId: int, productId: ProductId, quantity: int, customerName: string, paymentMode: string)
    requires Valid(s)
    ensures Valid(EditSale(s, saleId, productId, quantity, customerName, paymentMode))
    ensures Valid(DeleteSale(s, saleId))
  {
  }

  /** Changing a recorded sale's quantity leaves the stock where the original
      sale put it: the row says `newQuantity`, the stock still reflects
      `quantity`. */
  lemma EditDoesNotReconcileStock(s: Store, productId: ProductId, quantity: int, newQuantity: int, customerName: string, paymentMode: string)
    requires RecordSale(s, productId, quantity, customerName, paymentMode).1.Recorded?
    ensures var r := RecordSale(s, productId, quantity, customerName, paymentMode);
      var e := EditSale(r.0, r.1.saleId, productId, newQuantity, customerName, paymentMode);
      && e.sales[r.1.saleId].value.quantity == newQuantity
      && e.catalog[productId].stock == s.catalog[productId].stock - quantity
  {
  }

  /** Deleting a recorded sale does not give its stock back. */
  lemma DeleteDoesNotRestoreStock(s: Store, productId: ProductId, quantity: int, customerName: string, paymentMode: string)
    requires RecordSale(s, productId, quantity, customerName, paymentMode).1.Recorded?
    ensures var r := RecordSale(s, productId, quantity, customerName, paymentMode);
      var d := DeleteSale(r.0, r.1.saleId);
      && d.sales[r.1.saleId].None?
      && d.catalog[productId].stock == s.catalog[productId].stock - quantity
  {
  }
}

=== FILE: pagination.dfy ===
/** The page arithmetic of the inventory, legacy sales and sales report lists. */
module Pagination {

  /** Rows shown per page. */
  const PerPage: int := 10

  /** Number of pages for `count` rows: the ceiling of count / 10, and zero
      when there are no rows. */
  function TotalPages(count: nat): (n: nat)
    ensures count == 0 ==> n == 0
    ensures count > 0 ==> (n - 1) * PerPage < count <= n * PerPage
  {
    if count > 0 then (count + PerPage - 1) / PerPage else 0
  }

  /** The first row shown on `page` (pages count from 1). */
  function Offset(page: int): (r: int)
    ensures page >= 1 ==> r >= 0 && r % PerPage == 0 && r / PerPage + 1 == page
    ensures page < 1 ==> r < 0
  {
    (page - 1) * PerPage
  }

  /** The page that shows row `row` (rows count from 0). */
  function PageOf(row: nat): (p: nat)
    ensures p >= 1 && Offset(p) <= row < Offset(p) + PerPage
  {
    row / PerPage + 1
  }

  /** Pages 1..TotalPages(count) split the rows: every row is shown on exactly
      one of them. */
  lemma PagesPartitionRows(count: nat, row: nat, page: int)
    requires row < count
    ensures 1 <= PageOf(row) <= TotalPages(count)
    ensures Offset(page) <= row < Offset(page) + PerPage <==> page == PageOf(row)
  {
  }

  /** No listed page is empty: the last page still starts before the end. */
  lemma LastPageNonEmpty(count: nat)
    requires count > 0
    ensures 0 <= Offset(TotalPages(count)) < count
  {
  }
}

=== FILE: receipt.dfy ===
/** The receipt's split of an invoice total into subtotal, CGST and SGST. */
module Receipt {
  import Wrappers
  import opened Ledger
  import Billing
  import CheckoutProperties

  /** The receipt divides by this literal to get back the pre-tax amount. */
  const TaxInclusiveFactor: real := 1.18
  /** Each of CGST and SGST is this share of the subtotal. */
  const HalfGstRate: real := 0.09

  datatype TaxSplit = TaxSplit(subtotal: real, cgst: real, sgst: real)

  /** The receipt page's figures for a stored invoice total. */
  function ReceiptSplit(totalAmount: real): (r: TaxSplit)
    ensures r.subtotal * TaxInclusiveFactor == totalAmount
    ensures r.cgst == r.sgst
    ensures r.subtotal + r.cgst + r.sgst == totalAmount
  {
    var subtotal := totalAmount / TaxInclusiveFactor;
    TaxSplit(subtotal, subtotal * HalfGstRate, subtotal * HalfGstRate)
  }

  /** The receipt undoes checkout's tax: the subtotal it prints is the pre-tax
      amount checkout taxed, and CGST + SGST is exactly the tax added. */
  lemma ReceiptRecoversSubtotal(subtotal: int)
    ensures ReceiptSplit(Billing.InvoiceTotal(subtotal)).subtotal == subtotal as real
    ensures var r := ReceiptSplit(Billing.InvoiceTotal(subtotal));
      r.cgst + r.sgst == subtotal as real * Billing.TaxRate
  {
  }

  /** The receipt of a freshly created invoice shows as subtotal the sum of
      its line totals. */
  lemma ReceiptOfCheckout(s: Store, name: Wrappers.Option<string>, payment: Wrappers.Option<string>,
                          cart: Billing.Cart, cashier: string)
    requires Billing.Checkout(s, name, payment, Wrappers.Some(cart), cashier).1.Created?
    ensures var r := Billing.Checkout(s, name, payment, Wrappers.Some(cart), cashier).0;
      ReceiptSplit(r.invoices[|s.invoices|].totalAmount).subtotal
        == CheckoutProperties.SumLineTotals(r.items[|s.items|..]) as real
  {
    CheckoutProperties.CheckoutTotalMatchesLines(s, name, payment, cart, cashier);
  }
}

=== FILE: scenarios.dfy ===
/** Concrete checkouts against a one-product catalog. */
module Scenarios {
  import opened Wrappers
  import opened Ledger
  import opened Billing
  import opened CheckoutProperties

  /** A catalog holding product 1 at ₹100.00 with the given stock. */
  function ShopWith(stock: int): (s: Store)
    ensures s.catalog.Keys == {1} && s.catalog[1].price == 10000 && s.catalog[1].stock == stock
    ensures s.invoices == [] && s.items == [] && s.sales == []
  {
    EmptyStore().(catalog := map[1 := Product("Pen", "Stationery", 10000, stock)], nextProductId := 2)
  }

  /** The customer name used below is not blank. */
  lemma AshaIsNotBlank()
    ensures !IsBlankName(Some("Asha"))
  {
    assert !Text.IsSpace("Asha"[0]);
    NonBlankNameAccepted("Asha");
  }

  /** Two units at ₹100.00 make an invoice of ₹236.00 and leave 8 in stock. */
  lemma TwoPensFromTen()
    ensures var r := Checkout(ShopWith(10), Some("Asha"), Some("Cash"), Some([CartLine(1, 2, "Pen")]), "admin");
      && r.1 == Created(0)
      && r.0.invoices == [Invoice("Asha", "Cash", 23600.0, "admin")]
      && r.0.catalog[1].stock == 8
      && r.0.items == [InvoiceItem(0, 1, 2, 10000, 20000)]
      && r.0.sales == [Some(Sale(1, 2, 20000, "Asha", "Cash"))]
  {
    var s := ShopWith(10);
    var cart := [CartLine(1, 2, "Pen")];
    AshaIsNotBlank();
    CheckoutSucceedsIff(s, Some("Asha"), Some("Cash"), Some(cart), "admin");
    CheckoutInvoice(s, Some("Asha"), Some("Cash"), cart, "admin");
    CheckoutStock(s, Some("Asha"), Some("Cash"), cart, "admin");
    CheckoutRows(s, Some("Asha"), Some("Cash"), cart, "admin");
    assert Subtotal(s.catalog, cart) == 20000;
    var r := Checkout(s, Some("Asha"), Some("Cash"), Some(cart), "admin").0;
    assert r.items[0 + 0] == InvoiceItem(0, 1, 2, 10000, 20000);
    assert r.sales[0 + 0] == Some(Sale(1, 2, 20000, "Asha", "Cash"));
  }

  /** Five units against a stock of one is refused and nothing changes. */
  lemma FiveFromOneRefused()
    ensures var s := ShopWith(1);
      Checkout(s, Some("Asha"), Some("Cash"), Some([CartLine(1, 5, "Pen")]), "admin") == (s, Rejected(OutOfStock("Pen")))
  {
    AshaIsNotBlank();
    ShortageRollsBack(ShopWith(1), Some("Asha"), Some("Cash"), [CartLine(1, 5, "Pen")], "admin", 0);
  }

  /** A product id that is not in the catalog is refused like a shortage. */
  lemma UnknownProductRefused()
    ensures var s := ShopWith(10);
      Checkout(s, Some("Asha"), Some("Cash"), Some([CartLine(7, 1, "Ghost")]), "admin") == (s, Rejected(OutOfStock("Ghost")))
  {
    AshaIsNotBlank();
    UnknownProductRefusedAny(ShopWith(10), 7, 1, "Asha", "Cash", "Ghost", "admin");
  }

  /** A name of spaces and a tab is blank even with a cart that would sell. */
  lemma WhitespaceNameRefused()
    ensures var s := ShopWith(10);
      Checkout(s, Some(" \t "), Some("Cash"), Some([CartLine(1, 1, "Pen")]), "admin") == (s, Rejected(BlankCustomerName))
  {
    assert Text.AllSpace(" \t ");
    BlankNameRejectedFirst(ShopWith(10), Some(" \t "), Some("Cash"), Some([CartLine(1, 1, "Pen")]), "admin");
  }

  /** The quantity is not required to be positive: a negative quantity passes
      the stock check and raises the stock. */
  lemma NegativeQuantityRaisesStock()
    ensures var r := Checkout(ShopWith(3), Some("Asha"), Some("Cash"), Some([CartLine(1, -2, "Pen")]), "admin");
      && r.1 == Created(0)
      && r.0.invoices[0].totalAmount == -23600.0
      && r.0.catalog[1].stock == 5
  {
    var s := ShopWith(3);
    var cart := [CartLine(1, -2, "Pen")];
    AshaIsNotBlank();
    CheckoutSucceedsIff(s, Some("Asha"), Some("Cash"), Some(cart), "admin");
    CheckoutInvoice(s, Some("Asha"), Some("Cash"), cart, "admin");
    CheckoutStock(s, Some("Asha"), Some("Cash"), cart, "admin");
    assert cart[0].productId == 1;
    assert Subtotal(s.catalog, cart) == -20000;
  }

  /** The cart keys "1" and "01" are different JSON keys that both name
      product 1. Each line alone fits in a stock of 5, so both pass the stock
      check, and together they take the stock to -1. */
  lemma AliasedKeysDriveStockNegative()
    ensures var cart := [CartLine(1, 3, "Pen"), CartLine(1, 3, "Pen")];
      var r := Checkout(ShopWith(5), Some("Asha"), Some("Cash"), Some(cart), "admin");
      r.1 == Created(0) && r.0.catalog[1].stock == -1
  {
    var s := ShopWith(5);
    var cart := [CartLine(1, 3, "Pen"), CartLine(1, 3, "Pen")];
    AshaIsNotBlank();
    CheckoutSucceedsIff(s, Some("Asha"), Some("Cash"), Some(cart), "admin");
    CheckoutStock(s, Some("Asha"), Some("Cash"), cart, "admin");
    assert QuantityOf(cart, 1) == 6;
  }

  /** The per-product check refuses the same cart and leaves the stock at 5. */
  lemma AliasedKeysRefusedPerProduct()
    ensures var cart := [CartLine(1, 3, "Pen"), CartLine(1, 3, "Pen")];
      var s := ShopWith(5);
      CheckoutPerProduct(s, Some("Asha"), Some("Cash"), Some(cart), "admin") == (s, Rejected(OutOfStock("Pen")))
  {
    var s := ShopWith(5);
    var cart := [CartLine(1, 3, "Pen"), CartLine(1, 3, "Pen")];
    AshaIsNotBlank();
    assert QuantityOf(cart, 1) == 6;
    assert !Covered(s.catalog, cart, 0);
    OverdrawRefused(s, Some("Asha"), Some("Cash"), cart, "admin", 0);
  }
}

=== FILE: text.dfy ===
/** Python's notion of whitespace and `str.strip()` with no arguments. */
module Text {

  /** `str.isspace()` for one character: the ASCII controls TAB..CR and
      FS..US, the space, NEL, NO-BREAK SPACE and the Unicode space separators,
      line separator and paragraph separator. */
  predicate IsSpace(c: char) {
    var n := c as int;
    (0x09 <= n <= 0x0D) || (0x1C <= n <= 0x20) || n == 0x85 || n == 0xA0 || n == 0x1680
    || (0x2000 <= n <= 0x200A) || n == 0x2028 || n == 0x2029 || n == 0x202F || n == 0x205F
    || n == 0x3000
  }

  ghost predicate AllSpace(s: string) {
    forall i :: 0 <= i < |s| ==> IsSpace(s[i])
  }

  /** Drops the leading whitespace: the result is the longest suffix of `s`
      that does not start with whitespace. */
  function TrimLeft(s: string): (r: string)
    ensures |r| <= |s| && r == s[|s| - |r|..]
    ensures forall i :: 0 <= i < |s| - |r| ==> IsSpace(s[i])
    ensures r == [] || !IsSpace(r[0])
  {
    if |s| > 0 && IsSpace(s[0]) then TrimLeft(s[1..]) else s
  }

  /** Drops the trailing whitespace: the result is the longest prefix of `s`
      that does not end with whitespace. */
  function TrimRight(s: string): (r: string)
    ensures |r| <= |s| && r == s[..|r|]
    ensures forall i :: |r| <= i < |s| ==> IsSpace(s[i])
    ensures r == [] || !IsSpace(r[|r| - 1])
  {
    if |s| > 0 && IsSpace(s[|s| - 1]) then TrimRight(s[..|s| - 1]) else s
  }

  /** The `n` characters of `s` starting at index `i`. */
  function Piece(s: string, i: nat, n: nat): string
    requires i + n <= |s|
  {
    s[i..i + n]
  }

  /** `s.strip()`: the piece of `s` left after dropping whitespace from both
      ends, which neither starts nor ends with whitespace, and is empty
      exactly when `s` is all whitespace. */
  function Strip(s: string): (r: string)
    ensures exists i: nat :: i + |r| <= |s| && r == Piece(s, i, |r|)
              && AllSpace(s[..i]) && AllSpace(s[i + |r|..])
    ensures r == [] || (!IsSpace(r[0]) && !IsSpace(r[|r| - 1]))
    ensures r == [] <==> AllSpace(s)
  {
    var left := TrimLeft(s);
    var r := TrimRight(left);
    assert r == Piece(s, |s| - |left|, |r|);
    assert AllSpace(s[..|s| - |left|]);
    assert AllSpace(s[|s| - |left| + |r|..]);
    r
  }
}

=== FILE: wrappers.dfy ===
/** Failure-carrying values shared by the rest of the model. */
module Wrappers {

  /** A value that may be absent: a form field that was not sent, a payload
      that did not parse, a lookup that found nothing. */
  datatype Option<+T> = None | Some(value: T)
}
